=== FILE: README.md ===
# AnnualTimeSeries in Dafny

This project models `TimeSeriesData<T>`, the container at the heart of the
AnnualTimeSeries library, and proves properties of that model. The container is
an ordered collection holding at most one payload per calendar year. The
collection constructor, `Add`, `AddRange` and `FillInGapsWith` re-sort it by year; `Clear`
and the trims only remove entries, which keeps the order. Its payloads follow the `IAnnual` contract:

- a year;
- whether a value is present (non-null);
- whether it is non-zero;
- a copy stamped with another year.

The model uses these pieces:

- **Payload.** The test suite's `AnnualDecimal` class (an `IAnnual` that is
  `IEquatable<AnnualDecimal>`, equal on year and value) is modelled as the
  datatype `AnnualDecimal(year, value: Option<int>)`.
- **Container.** The container is an immutable `seq<AnnualDecimal>`. Each
  mutating method becomes a function from the old sequence to the new one.
- **Container invariant.** The invariant is `Series.Ascending`: years strictly
  increase, which means "sorted and no year twice".
- **Failures.** Apart from the cases listed under "Left out", the C# code throws
  `InvalidOperationException` in two cases: LINQ `Min`/`Max` over nothing, and a
  repeated year at construction. Both become a `Result` carrying a `SeriesError`.

Modules, one per concern of the class:

- `Annual`: the payload contract (`IAnnual`) for `AnnualDecimal`.
- `Series`: the invariant predicates and the re-sort (`SortData`). Also the fact
  that a duplicate-free collection has exactly one sorted form.
- `Lookup`: `ContainsYear`, `GetYear`, `YearHasNon*Value`, `HasNon*Values`,
  `GetYears`, `Count`, `IsEmpty`, `IsNotEmpty`, `Clear`.
- `YearRange`: `StartYear`, `EndYear` and their non-zero variants.
- `Construction`: both constructors, with the reindexing import heuristic
  (`PrepareDataFromJson`) and the duplicate check (`ValidateData`).
- `Mutation`: `AddData`, `Add` and `AddRange`.
- `Gaps`: `GetYearsGap` and `FillInGapsWith`.
- `Trim`: `TrimNulls`, `TrimNullDataFromTheStart`, `TrimNullDataFromTheEnd`
  and `TrimNullData`.
- `Scenarios`: concrete cases from the repository's test suite, stated as lemmas.

The gap filler and the trims run on the container's invariant. A sequence with
increasing years is what the C# object holds between calls. Under that invariant:

- `OrderBy(v => v.Year)` is the sequence itself.
- `OrderByDescending(v => v.Year)` is its reverse.

The trims are methods whose loops follow `TrimNulls`: walk the ordered entries,
stop at the first one with a value, and otherwise `List.Remove` the entry.

## Model

| member | source | states |
|---|---|---|
| Annual.HasNonNullValue | test/AnnualTimeSeriesTests/AnnualDecimal.cs:20-23 | true exactly when a value is present (`Some`) |
| Annual.HasNonZeroValue | test/AnnualTimeSeriesTests/AnnualDecimal.cs:25-28 | true exactly when a value is present and not zero |
| Annual.ChangeYear | test/AnnualTimeSeriesTests/AnnualDecimal.cs:30-33 | the copy carries the requested year and the very same value (so presence and zero-ness are kept); re-stamping with the same year is the identity |
| Annual.NonZeroIsNonNull | test/AnnualTimeSeriesTests/AnnualDecimal.cs:20-28 | a non-zero value is always a present value |
| Series.Sort | src/AnnualTimeSeries/TimeSeriesData.cs:67-82 | the re-sort yields years in non-decreasing order, holds exactly the same entries (multiset), and is strictly ascending when no year was repeated |
| Series.Insert | src/AnnualTimeSeries/TimeSeriesData.cs:67-82 | inserting into a year-sorted sequence keeps it sorted and adds exactly that entry |
| Series.PermutationKeepsUniqueYears | src/AnnualTimeSeries/TimeSeriesData.cs:67-82 | reordering entries (as the sort does) cannot create a repeated year |
| Series.AscendingPermutationsEqual | src/AnnualTimeSeries/TimeSeriesData.cs:67-82 | two strictly ascending sequences with the same entries are equal, so the sorted state does not depend on the sort algorithm or its stability |
| Series.SortKeepsAscending | src/AnnualTimeSeries/TimeSeriesData.cs:67-82 | re-sorting a series that already satisfies the invariant leaves it unchanged |
| Series.SortKeepsMembers | src/AnnualTimeSeries/TimeSeriesData.cs:67-82 | an entry is in the sorted sequence exactly when it was in the input |
| Lookup.IndexOfYear | src/AnnualTimeSeries/TimeSeriesData.cs:86 | `FindIndex` returns the first position stamped with the year, or -1 exactly when no entry carries it |
| Lookup.ContainsYear | src/AnnualTimeSeries/TimeSeriesData.cs:97-100 | true exactly when some entry carries the year |
| Lookup.GetYear | src/AnnualTimeSeries/TimeSeriesData.cs:102-105 | `None` exactly for an absent year, otherwise a stored entry with that year; without repeated years it is the one entry with that year |
| Lookup.GetYearOfPermutation | src/AnnualTimeSeries/TimeSeriesData.cs:102-105 | without repeated years, the lookup does not depend on the order of the entries |
| Lookup.YearHasNonNullValue | src/AnnualTimeSeries/TimeSeriesData.cs:168-171 | false for an absent year; without repeated years, true exactly when the entry of that year has a value |
| Lookup.YearHasNonZeroValue | src/AnnualTimeSeries/TimeSeriesData.cs:173-176 | false for an absent year and implies the non-null query; without repeated years, true exactly when the entry of that year is non-zero |
| Lookup.HasNonNullValues | src/AnnualTimeSeries/TimeSeriesData.cs:182-185 | true exactly when some entry has a value, so false on an empty series |
| Lookup.HasNonZeroValues | src/AnnualTimeSeries/TimeSeriesData.cs:191-194 | true exactly when some entry is non-zero; implies the non-null query |
| Lookup.GetYears | src/AnnualTimeSeries/TimeSeriesData.cs:163-166 | one year per entry, position by position; a year is listed exactly when some entry carries it; strictly ascending on the invariant |
| Lookup.Count | src/AnnualTimeSeries/TimeSeriesData.cs:250 | the count equals the number of listed years |
| Lookup.IsEmpty | src/AnnualTimeSeries/TimeSeriesData.cs:196-199 | empty exactly when the count is zero; an empty series has no value |
| Lookup.IsNotEmpty | src/AnnualTimeSeries/TimeSeriesData.cs:201-204 | the negation of `IsEmpty` |
| Lookup.Clear | src/AnnualTimeSeries/TimeSeriesData.cs:262-265 | afterwards the series is empty, satisfies the invariant and contains no year |
| YearRange.MinYear | src/AnnualTimeSeries/TimeSeriesData.cs:210-213 | the result is a stored year and no stored year is smaller |
| YearRange.MaxYear | src/AnnualTimeSeries/TimeSeriesData.cs:219-222 | the result is a stored year and no stored year is larger |
| YearRange.StartYear | src/AnnualTimeSeries/TimeSeriesData.cs:210-213 | fails with `EmptyRange` exactly on an empty series, otherwise yields the least stored year, whatever its value |
| YearRange.EndYear | src/AnnualTimeSeries/TimeSeriesData.cs:219-222 | fails with `EmptyRange` exactly on an empty series, otherwise yields the greatest stored year, whatever its value |
| YearRange.LeastYearIsStartYear | src/AnnualTimeSeries/TimeSeriesData.cs:210-213 | any least stored year is what `StartYear` returns |
| YearRange.GreatestYearIsEndYear | src/AnnualTimeSeries/TimeSeriesData.cs:219-222 | any greatest stored year is what `EndYear` returns |
| YearRange.RangeOfAscending | src/AnnualTimeSeries/TimeSeriesData.cs:210-222 | on the invariant, the start and end years are the years of the first and last entries |
| YearRange.StartNotAfterEnd | src/AnnualTimeSeries/TimeSeriesData.cs:210-222 | on a non-empty series the start year is not after the end year |
| YearRange.NonZeroEntries | src/AnnualTimeSeries/TimeSeriesData.cs:226-229 | the filter keeps exactly the non-zero entries and is empty exactly when no value is non-zero |
| YearRange.StartYearOfNonZeroValue | src/AnnualTimeSeries/TimeSeriesData.cs:224-230 | fails exactly when no entry is non-zero (empty, all null or all zero), otherwise yields the least year among non-zero entries |
| YearRange.EndYearOfNonZeroValue | src/AnnualTimeSeries/TimeSeriesData.cs:232-238 | fails exactly when no entry is non-zero, otherwise yields the greatest year among non-zero entries |
| YearRange.NonZeroRangeWithinRange | src/AnnualTimeSeries/TimeSeriesData.cs:210-238 | the non-zero range lies inside the overall range |
| Construction.SingleGroupIffAllSameYear | src/AnnualTimeSeries/TimeSeriesData.cs:44-45 | grouping a non-empty collection by year yields at most one group exactly when all entries share one year |
| Construction.Reindex | src/AnnualTimeSeries/TimeSeriesData.cs:48-55 | entry i is re-stamped with year `start + i` and keeps its value, so the result is strictly ascending |
| Construction.PrepareDataFromJson | src/AnnualTimeSeries/TimeSeriesData.cs:40-56 | more than one entry all sharing one year are renumbered 0..n-1 in input order with values kept; any other input is returned unchanged |
| Construction.Duplicates | src/AnnualTimeSeries/TimeSeriesData.cs:58-65 | exactly the years that two different entries report; empty exactly when no year repeats, and only input years |
| Construction.Empty | src/AnnualTimeSeries/TimeSeriesData.cs:17-20 | the parameterless constructor gives an empty series satisfying the invariant |
| Construction.FromValues | src/AnnualTimeSeries/TimeSeriesData.cs:26-38 | a null collection gives an empty series; otherwise construction fails exactly when the prepared input repeats a year, naming exactly the years it repeats, and succeeds with a strictly ascending permutation of the prepared input |
| Construction.FromValuesRoundTrip | src/AnnualTimeSeries/TimeSeriesData.cs:26-38 | feeding the constructor the entries of any valid series, in any order, rebuilds exactly that series |
| Mutation.AddData | src/AnnualTimeSeries/TimeSeriesData.cs:84-95 | the stored entries are the old ones with the entry of `v`'s year (if any) replaced by `v`, otherwise with `v` added; no repeated year is introduced |
| Mutation.Add | src/AnnualTimeSeries/TimeSeriesData.cs:107-115 | the result is sorted and contains `v`; the count grows by one exactly when the year was absent; entries of other years are untouched; without repeated years before, the result is strictly ascending and `v` is the only entry of its year |
| Mutation.AddAll | src/AnnualTimeSeries/TimeSeriesData.cs:119-122 | storing a batch one by one introduces no repeated year |
| Mutation.AddRange | src/AnnualTimeSeries/TimeSeriesData.cs:117-124 | the result is sorted, and strictly ascending when the series had no repeated year |
| Mutation.LastWithYear | src/AnnualTimeSeries/TimeSeriesData.cs:119-122 | an entry of the batch with the year that no later batch entry shares (the last one), `None` exactly when the batch does not mention the year |
| Mutation.GetYearAfterAddData | src/AnnualTimeSeries/TimeSeriesData.cs:84-95 | after storing `v`, the lookup of `v`'s year gives `v` and every other year's lookup is unchanged |
| Mutation.AddAllLaterWins | src/AnnualTimeSeries/TimeSeriesData.cs:119-122 | after the batch loop, each year holds the batch's last entry for it, or its previous entry when the batch does not mention it |
| Mutation.AddRangeLaterWins | src/AnnualTimeSeries/TimeSeriesData.cs:117-124 | the same for `AddRange` including its final sort: a later duplicate in the batch wins |
| Mutation.AddRangeIsRepeatedAdd | src/AnnualTimeSeries/TimeSeriesData.cs:111-124 | on the invariant, `AddRange` ends in the same state as calling `Add` on each entry in turn |
| Mutation.StoringPresentEntry | src/AnnualTimeSeries/TimeSeriesData.cs:84-95 | storing an entry that is already stored changes nothing |
| Mutation.AddIdempotent | src/AnnualTimeSeries/TimeSeriesData.cs:107-115 | adding the same entry twice is the same as adding it once |
| Gaps.GetYearsGap | src/AnnualTimeSeries/TimeSeriesData.cs:130-144 | fails exactly on an empty series; otherwise yields, strictly ascending, exactly the years between the start and end year that no entry carries (a null or zero value is not a gap) |
| Gaps.AppendMissingYears | src/AnnualTimeSeries/TimeSeriesData.cs:153-159 | the gap-filling loop only appends, keeping the existing entries as a prefix |
| Gaps.AppendedAreMissingYears | src/AnnualTimeSeries/TimeSeriesData.cs:153-159 | every appended entry is the factory's entry for a year of the range that was missing |
| Gaps.AppendCoversRange | src/AnnualTimeSeries/TimeSeriesData.cs:153-159 | after the loop every year of the range is present |
| Gaps.AppendKeepsUniqueYears | src/AnnualTimeSeries/TimeSeriesData.cs:153-159 | the loop introduces no repeated year when the factory stamps the year it is given |
| Gaps.FillInGapsWith | src/AnnualTimeSeries/TimeSeriesData.cs:146-161 | the result is strictly ascending, keeps every existing entry, adds only factory entries for missing years, and leaves an empty series empty |
| Gaps.CoveredRangeLength | src/AnnualTimeSeries/TimeSeriesData.cs:146-161 | an ascending series covering exactly the years of a range has one entry per year of it |
| Gaps.FillInGapsCoversRange | src/AnnualTimeSeries/TimeSeriesData.cs:146-161 | after filling, the start and end years are unchanged, every year between them is present, and the count is end - start + 1 |
| Trim.RemoveFirst | src/AnnualTimeSeries/TimeSeriesData.cs:275 | `List.Remove` cuts out the first occurrence of the entry when present, keeping the other entries in order, and changes nothing otherwise |
| Trim.Reverse | src/AnnualTimeSeries/TimeSeriesData.cs:279-283 | the enumeration order of `OrderByDescending(v => v.Year)` on an ascending series: same length, position i holds the entry at position length-1-i |
| Trim.RemoveLast | src/AnnualTimeSeries/TimeSeriesData.cs:275 | without repeated years, removing the last entry's value drops exactly the last position |
| Trim.TrimNullDataFromTheStart | src/AnnualTimeSeries/TimeSeriesData.cs:267-289 | removes exactly the longest value-less prefix: what remains is a suffix starting with a valued entry (or empty); the invariant is kept; an already trimmed series is unchanged |
| Trim.TrimNullDataFromTheEnd | src/AnnualTimeSeries/TimeSeriesData.cs:267-283 | removes exactly the longest value-less suffix: what remains is a prefix ending with a valued entry (or empty); the invariant is kept; an already trimmed series is unchanged |
| Trim.TrimmedAtStartUnique | src/AnnualTimeSeries/TimeSeriesData.cs:285-289 | the start trim has one possible outcome |
| Trim.TrimmedAtEndUnique | src/AnnualTimeSeries/TimeSeriesData.cs:279-283 | the end trim has one possible outcome |
| Trim.AllNullTrimsAway | src/AnnualTimeSeries/TimeSeriesData.cs:267-289 | a series without any value is trimmed to nothing from either end |
| Trim.TrimsLeaveValuedStretch | src/AnnualTimeSeries/TimeSeriesData.cs:291-295 | start then end trim leaves valued ends, adds nothing, keeps every entry between two valued entries (inner nulls included), and empties an all-null series |
| Trim.TrimNullDataIdempotent | src/AnnualTimeSeries/TimeSeriesData.cs:291-295 | trimming the result of a start-then-end trim again leaves it unchanged |
| Trim.TrimNullData | src/AnnualTimeSeries/TimeSeriesData.cs:291-295 | start trim followed by end trim (the ghost `t` is the series in between); the result keeps the invariant, starts and ends with values, keeps the inner stretch, is empty for an all-null series, and a trimmed series is left unchanged, so trimming twice equals trimming once |
| Scenarios.ReindexesUntaggedInput | test/AnnualTimeSeriesTests/TimeSeriesDataTests.cs:500-511 | three entries all of year 0 become years 0, 1, 2 in input order |
| Scenarios.RejectsDuplicateYear | test/AnnualTimeSeriesTests/TimeSeriesDataTests.cs:254-259 | an input naming year 20 twice fails, naming year 20 |
| Scenarios.SortsScrambledInput | test/AnnualTimeSeriesTests/TimeSeriesDataTests.cs:236-252 | entries given out of order are stored in year order |
| Scenarios.RewritingTheSameYear | test/AnnualTimeSeriesTests/TimeSeriesDataTests.cs:47-55 | writing year 10 twice keeps one entry holding the second value |
| Scenarios.FillLoopAppends11To14 | test/AnnualTimeSeriesTests/TimeSeriesDataTests.cs:261-287 | the fill loop over 10..15 appends entries for 11, 12 and 14 |
| Scenarios.FillsGaps | test/AnnualTimeSeriesTests/TimeSeriesDataTests.cs:261-287 | years 10, 13, 15 are filled with 55 for 11, 12, 14, in year order |
| Scenarios.TrimsNullStart | test/AnnualTimeSeriesTests/TimeSeriesDataTests.cs:423-440 | the start trim of null, null, 12, 13, null, null keeps 12, 13, null, null |
| Scenarios.TrimsNullEnd | test/AnnualTimeSeriesTests/TimeSeriesDataTests.cs:404-421 | the end trim of the same series keeps null, null, 12, 13 |
| Scenarios.TrimsNullEnds | src/AnnualTimeSeries/TimeSeriesData.cs:291-295 | both trims on the same series keep 12, 13 |
| Scenarios.AllZeroHasNoNonZeroRange | test/AnnualTimeSeriesTests/TimeSeriesDataTests.cs:178-189 | an all-zero series has start 10 and end 20, but no non-zero start or end year |

## Left out

- JSON serialization and deserialization through Newtonsoft.Json are an
  external library. Only the collection constructor it calls is modelled.
- The `IEnumerable`/`IEnumerator` plumbing (`TimeSeriesData.cs:240-248`) is left
  out. The model's sequence is the enumeration order.
- `Exists(Predicate)` and `Contains(T)` (`TimeSeriesData.cs:252-260`) are left
  out. They only forward to `List<T>` and depend on the payload's equality.
- Exception types and message text are not modelled. A thrown exception is a
  `Failure` value. The duplicate-year message's list of years is modelled as the
  set `DuplicateYears(years)`.
- The sort algorithm and its (in)stability are not modelled. `Series.Sort` is one
  sort with the same outcome. On duplicate-free input all sorts agree
  (`Series.AscendingPermutationsEqual`). Given a gap-filling factory that stamps
  the year it is asked for, the container never sorts input with a repeated year:
  construction rejects it first.
- `decimal` arithmetic is not modelled: values are integers. Only presence, zero-ness
  and equality of payloads are ever inspected.
- The payload is the test suite's `AnnualDecimal`, not an arbitrary `IAnnual`.
  Another payload behaves the same when three conditions hold: its `ChangeYear`
  keeps presence and zero-ness, a non-zero value is always a non-null one
  (`IAnnual` does not promise this; `Lookup.HasNonZeroValues` relies on it), and
  its equality tells entries of different years apart. The trims remove through
  `List.Remove` (`TimeSeriesData.cs:275`), which uses the payload's equality; a
  payload whose equality ignores the year could remove an entry of another year.
- Gaps.FillInGapsWith requires that the factory stamps each entry with the year
  it was asked for. The C# code appends `value(year)` without checking this. A
  factory that stamps another year can break the one-entry-per-year invariant,
  and that case is not modelled.
- Gaps.FillInGapsWith and Mutation.Add, AddRange are stated for a series without
  repeated years, which is the container's invariant. `Add` also states the
  count and the untouched entries for any input.
- Trim.TrimNullDataFromTheStart, TrimNullDataFromTheEnd and TrimNullData require
  the invariant `Ascending`. Under it the `OrderBy`/`OrderByDescending` views
  are the series itself and its reverse. They are not modelled for unsorted data,
  which the container never holds.
- Gaps.GetYearsGap: years are unbounded integers here. The C# loop
  `for (int year = startYear; year <= endYear; year++)` (`TimeSeriesData.cs:136`)
  never ends normally when the end year is `int.MaxValue`: `year <= endYear`
  stays true and `year++` wraps (or throws when checked). The model returns the
  gaps as if the loop stopped after the end year; a gap list that a C# `List`
  could not hold is likewise not ruled out.
- Gaps.FillInGapsWith: the same holds for its loop (`TimeSeriesData.cs:153`). At
  an end year of `int.MaxValue` the C# call does not return normally, while the
  model returns the filled series. `Gaps.FillInGapsCoversRange`'s count
  end - start + 1 is an unbounded integer, not limited by a C# `List`'s capacity.
- Mutation.AddRange: a non-empty batch that lazily enumerates the container
  itself is not modelled as the C# behaviour. Examples are `ts.AddRange(ts)` and
  `ts.AddRange(ts.Select(...))`. The `foreach` (`TimeSeriesData.cs:119`) walks
  `_data` through the list's enumerator while `AddData` writes through the
  indexer or `Add` (`TimeSeriesData.cs:89`, `:93`), so the next `MoveNext` throws
  `InvalidOperationException`. The model takes the batch as a finished value and
  returns a result.
- Null references other than the constructor's null collection are not
  modelled: a `seq` batch and a datatype payload cannot be null. In C#,
  `AddRange(null)` throws `NullReferenceException` at the `foreach`
  (`TimeSeriesData.cs:119`). A null payload makes `GroupBy(v => v.Year)` throw
  (`TimeSeriesData.cs:44`, `:60`), and `Add(null)` on an empty series stores the
  null. A null factory throws in `FillInGapsWith` (`TimeSeriesData.cs:157`) once
  there is a gap.
- Lookup.GetYears: the C# call returns a lazy `Select` view over the live list
  (`TimeSeriesData.cs:165`), so a later mutation shows through it. The model
  returns the years at the time of the call.
- The NUnit test harness is not modelled. Test cases appear as lemmas in
  `Scenarios`.

## Notes on the code

- `GetYearsGap` on an empty series: the code calls `StartYear()` without an
  emptiness guard (`TimeSeriesData.cs:133`), and `Min` over no element throws.
  `Gaps.GetYearsGap` therefore returns `Failure(EmptyRange)` exactly when the
  series is empty. Of the two range walks, only `FillInGapsWith` returns early
  on an empty series (`TimeSeriesData.cs:148`).
- `GetYear` for a missing year returns `default(T)`, which is null for a class
  payload, rather than failing. It is modelled as `None`.

=== FILE: annual.dfy ===
/** The payload contract of a time series (the `IAnnual` interface), instantiated
    with the decimal-per-year record the repository's tests use. The container
    only ever looks at a payload through the four members defined here. */
module Annual {
  import opened Wrappers

  /** One value for one year; `value` is `None` when the year carries no data
      (a null decimal). Decimals are modelled as integers: only presence and
      zero-ness are ever inspected. */
  datatype AnnualDecimal = AnnualDecimal(year: int, value: Option<int>)

  /** A value is present. */
  predicate HasNonNullValue(a: AnnualDecimal)
  {
    a.value.Some?
  }

  /** A value is present and it is not zero. */
  predicate HasNonZeroValue(a: AnnualDecimal)
  {
    a.value.Some? && a.value.value != 0
  }

  /** The same payload stamped with another year. */
  function ChangeYear(a: AnnualDecimal, year: int): (r: AnnualDecimal)
    ensures r.year == year
    ensures r.value == a.value
    ensures HasNonNullValue(r) == HasNonNullValue(a)
    ensures HasNonZeroValue(r) == HasNonZeroValue(a)
    ensures year == a.year ==> r == a
  {
    AnnualDecimal(year, a.value)
  }

  /** A non-zero value is in particular a present one. */
  lemma NonZeroIsNonNull(a: AnnualDecimal)
    ensures HasNonZeroValue(a) ==> HasNonNullValue(a)
  {
  }
}

=== FILE: construction.dfy ===
/** Building a series from an externally supplied collection: the reindexing
    heuristic for inputs that all carry one year, the duplicate-year check and
    the initial sort. */
module Construction {
  import opened Wrappers
  import opened Annual
  import opened Series

  /** The distinct years in a collection (the keys of `GroupBy(v => v.Year)`). */
  function YearSet(s: seq<AnnualDecimal>): set<int>
  {
    set i | 0 <= i < |s| :: s[i].year
  }

  /** Every entry carries the year of the first one. */
  predicate AllSameYear(s: seq<AnnualDecimal>)
  {
    forall i :: 0 <= i < |s| ==> s[i].year == s[0].year
  }

  /** Grouping a non-empty collection by year yields one group exactly when all
      entries share a year. */
  lemma SingleGroupIffAllSameYear(s: seq<AnnualDecimal>)
    requires |s| > 0
    ensures |YearSet(s)| <= 1 <==> AllSameYear(s)
  {
    if AllSameYear(s) {
      assert YearSet(s) == {s[0].year};
    } else {
      var i :| 0 <= i < |s| && s[i].year != s[0].year;
      var two := {s[0].year, s[i].year};
      assert two <= YearSet(s);
      assert |YearSet(s)| == |two| + |YearSet(s) - two|;
    }
  }

  /** Stamps the entries with consecutive years from `year` on, in input order. */
  function Reindex(values: seq<AnnualDecimal>, year: int): (r: seq<AnnualDecimal>)
    ensures |r| == |values|
    ensures forall i :: 0 <= i < |r| ==> r[i].year == year + i && r[i].value == values[i].value
    ensures Ascending(r)
  {
    if |values| == 0 then []
    else [ChangeYear(values[0], year)] + Reindex(values[1..], year + 1)
  }

  /** The import heuristic: a collection of more than one entry whose entries all
      report the same year is taken to lack year tags and is renumbered 0, 1, 2, ...
      in its given order; any other collection is used unchanged. */
  function PrepareDataFromJson(values: seq<AnnualDecimal>): (r: seq<AnnualDecimal>)
    ensures |values| > 1 && AllSameYear(values) ==>
      |r| == |values| &&
      forall i :: 0 <= i < |r| ==> r[i] == ChangeYear(values[i], i)
    ensures !(|values| > 1 && AllSameYear(values)) ==> r == values
  {
    if |values| <= 1 then values
    else
      SingleGroupIffAllSameYear(values);
      if |YearSet(values)| > 1 then values
      else Reindex(values, 0)
  }

  /** The years that more than one entry reports. */
  function Duplicates(s: seq<AnnualDecimal>): (d: set<int>)
    ensures forall y :: y in d <==> exists i, j :: 0 <= i < j < |s| && s[i].year == y && s[j].year == y
    ensures d == {} <==> UniqueYears(s)
    ensures d <= YearSet(s)
  {
    var d := set i, j | 0 <= i < j < |s| && s[i].year == s[j].year :: s[i].year;
    assert !UniqueYears(s) ==> d != {} by {
      if !UniqueYears(s) {
        var i, j :| 0 <= i < |s| && 0 <= j < |s| && i != j && s[i].year == s[j].year;
        if i < j { assert s[i].year in d; } else { assert s[j].year in d; }
      }
    }
    d
  }

  /** An empty series (the parameterless constructor). */
  function Empty(): (r: seq<AnnualDecimal>)
    ensures Ascending(r) && |r| == 0
  {
    []
  }

  /** The collection constructor. `None` stands for a null collection and gives an
      empty series. Otherwise the input goes through the import heuristic, is
      rejected when a year still occurs twice, and is sorted. */
  function FromValues(values: Option<seq<AnnualDecimal>>): (r: Result<seq<AnnualDecimal>, SeriesError>)
    ensures values.None? ==> r == Success([])
    ensures values.Some? ==> (r.Failure? <==> !UniqueYears(PrepareDataFromJson(values.value)))
    ensures r.Failure? ==> r.error.DuplicateYears? && r.error.years != {}
    ensures r.Failure? ==> r.error.years <= YearSet(PrepareDataFromJson(values.value))
    ensures r.Failure? ==> r.error.years == Duplicates(PrepareDataFromJson(values.value))
    ensures r.Success? ==> Ascending(r.value)
    ensures r.Success? && values.Some? ==>
      multiset(r.value) == multiset(PrepareDataFromJson(values.value))
  {
    match values
    case None => Success([])
    case Some(vs) =>
      var data := PrepareDataFromJson(vs);
      var duplicates := Duplicates(data);
      if duplicates != {} then Failure(DuplicateYears(duplicates))
      else Success(Sort(data))
  }

  /** Round trip: handing the constructor the entries of any valid series, in any
      order, rebuilds exactly that series. */
  lemma FromValuesRoundTrip(s: seq<AnnualDecimal>, scrambled: seq<AnnualDecimal>)
    requires Ascending(s)
    requires multiset(scrambled) == multiset(s)
    ensures FromValues(Some(scrambled)) == Success(s)
  {
    PermutationKeepsUniqueYears(s, scrambled);
    if |scrambled| > 1 {
      assert scrambled[1].year != scrambled[0].year;
    }
    assert PrepareDataFromJson(scrambled) == scrambled;
    var r := FromValues(Some(scrambled));
    AscendingPermutationsEqual(r.value, s);
  }
}

=== FILE: gaps.dfy ===
/** Years missing between the first and last stored year, and filling them in. */
module Gaps {
  import opened Wrappers
  import opened Annual
  import opened Series
  import opened Lookup
  import opened YearRange

  /** The years from the start year to the end year, in ascending order, that no
      entry carries. A stored entry with a null or zero value is not a gap. On an
      empty series the start year cannot be computed and the call fails. */
  method GetYearsGap(s: seq<AnnualDecimal>) returns (r: Result<seq<int>, SeriesError>)
    ensures r.Failure? <==> IsEmpty(s)
    ensures r.Failure? ==> r.error == EmptyRange
    ensures r.Success? ==> forall i, j :: 0 <= i < j < |r.value| ==> r.value[i] < r.value[j]
    ensures r.Success? ==> forall y ::
      y in r.value <==> StartYear(s).value <= y <= EndYear(s).value && !ContainsYear(s, y)
  {
    var startYear := StartYear(s);
    if startYear.Failure? {
      return Failure(startYear.error);
    }
    var endYear := EndYear(s);
    StartNotAfterEnd(s);
    var lo, hi := startYear.value, endYear.value;
    var gaps: seq<int> := [];
    var year := lo;
    while year <= hi
      invariant lo <= year <= hi + 1
      invariant forall i, j :: 0 <= i < j < |gaps| ==> gaps[i] < gaps[j]
      invariant forall i :: 0 <= i < |gaps| ==> gaps[i] < year
      invariant forall y :: y in gaps <==> lo <= y < year && !ContainsYear(s, y)
    {
      if !ContainsYear(s, year) {
        gaps := gaps + [year];
      }
      year := year + 1;
    }
    return Success(gaps);
  }

  /** The gap filler stamps every entry it makes with the year it was asked for. */
  ghost predicate StampsYear(factory: int -> AnnualDecimal)
  {
    forall y :: factory(y).year == y
  }

  /** The loop of `FillInGapsWith`: for each year from `year` to `hi`, appends
      `factory(year)` when no entry carries that year yet. */
  function AppendMissingYears(d: seq<AnnualDecimal>, year: int, hi: int, factory: int -> AnnualDecimal): (r: seq<AnnualDecimal>)
    requires year <= hi + 1
    ensures |d| <= |r| && r[..|d|] == d
    decreases hi + 1 - year
  {
    if year > hi then d
    else if ContainsYear(d, year) then AppendMissingYears(d, year + 1, hi, factory)
    else
      var d' := d + [factory(year)];
      var r := AppendMissingYears(d', year + 1, hi, factory);
      assert r[..|d|] == r[..|d'|][..|d|];
      r
  }

  /** Every entry of `r` past the prefix `d` is the factory's entry for a year of
      `[lo, hi]` that `d` lacks. */
  ghost predicate AppendsOnlyMissing(d: seq<AnnualDecimal>, r: seq<AnnualDecimal>, lo: int, hi: int, factory: int -> AnnualDecimal)
  {
    forall i :: |d| <= i < |r| ==>
      lo <= r[i].year <= hi && r[i] == factory(r[i].year) && !ContainsYear(d, r[i].year)
  }

  /** Every year of `[lo, hi]` is present in `r`. */
  ghost predicate CoversYears(r: seq<AnnualDecimal>, lo: int, hi: int)
  {
    forall y :: lo <= y <= hi ==> ContainsYear(r, y)
  }

  lemma {:induction false} AppendedAreMissingYears(d: seq<AnnualDecimal>, year: int, hi: int, factory: int -> AnnualDecimal)
    requires year <= hi + 1
    requires StampsYear(factory)
    ensures AppendsOnlyMissing(d, AppendMissingYears(d, year, hi, factory), year, hi, factory)
    decreases hi + 1 - year
  {
    if year <= hi {
      if ContainsYear(d, year) {
        AppendedAreMissingYears(d, year + 1, hi, factory);
        assert AppendMissingYears(d, year, hi, factory) == AppendMissingYears(d, year + 1, hi, factory);
      } else {
        var d' := d + [factory(year)];
        var r := AppendMissingYears(d', year + 1, hi, factory);
        AppendedAreMissingYears(d', year + 1, hi, factory);
        assert AppendsOnlyMissing(d', r, year + 1, hi, factory);
        assert AppendMissingYears(d, year, hi, factory) == r;
        forall i | |d| <= i < |r|
          ensures year <= r[i].year <= hi && r[i] == factory(r[i].year) && !ContainsYear(d, r[i].year)
        {
          if i == |d| {
            assert r[i] == r[..|d'|][i] == d'[i];
          } else {
            assert !ContainsYear(d', r[i].year);
          }
        }
      }
    }
  }

  /** After the loop every year of the range is present. */
  lemma {:induction false} AppendCoversRange(d: seq<AnnualDecimal>, year: int, hi: int, factory: int -> AnnualDecimal)
    requires year <= hi + 1
    requires StampsYear(factory)
    ensures CoversYears(AppendMissingYears(d, year, hi, factory), year, hi)
    decreases hi + 1 - year
  {
    if year <= hi {
      var r := AppendMissingYears(d, year, hi, factory);
      if ContainsYear(d, year) {
        AppendCoversRange(d, year + 1, hi, factory);
        assert r == AppendMissingYears(d, year + 1, hi, factory);
        var i :| 0 <= i < |d| && d[i].year == year;
        assert r[..|d|][i] == d[i];
        assert r[i].year == year;
      } else {
        var d' := d + [factory(year)];
        AppendCoversRange(d', year + 1, hi, factory);
        assert r == AppendMissingYears(d', year + 1, hi, factory);
        assert r[..|d'|][|d|] == d'[|d|];
        assert r[|d|].year == year;
      }
      assert ContainsYear(r, year);
    }
  }

  /** The loop introduces no repeated year. */
  lemma {:induction false} AppendKeepsUniqueYears(d: seq<AnnualDecimal>, year: int, hi: int, factory: int -> AnnualDecimal)
    requires year <= hi + 1
    requires StampsYear(factory)
    requires UniqueYears(d)
    ensures UniqueYears(AppendMissingYears(d, year, hi, factory))
    decreases hi + 1 - year
  {
    if year <= hi {
      if ContainsYear(d, year) {
        AppendKeepsUniqueYears(d, year + 1, hi, factory);
      } else {
        var d' := d + [factory(year)];
        forall i, j | 0 <= i < |d'| && 0 <= j < |d'| && i != j
          ensures d'[i].year != d'[j].year
        {
          if i < |d| && j < |d| {
            assert d'[i] == d[i] && d'[j] == d[j];
          } else if i < |d| {
            assert d'[i] == d[i];
          } else {
            assert d'[j] == d[j];
          }
        }
        AppendKeepsUniqueYears(d', year + 1, hi, factory);
      }
    }
  }

  /** The entries the gap-filling loop leaves before the re-sort: the original
      ones, plus the factory's entry for each year of the range that was missing. */
  lemma AppendedEntries(s: seq<AnnualDecimal>, lo: int, hi: int, factory: int -> AnnualDecimal)
    requires lo <= hi + 1
    requires StampsYear(factory)
    ensures var d := AppendMissingYears(s, lo, hi, factory);
      (forall e :: e in s ==> e in d) &&
      (forall e :: e in d ==> e in s || (e == factory(e.year) && !ContainsYear(s, e.year) && lo <= e.year <= hi))
  {
    var d := AppendMissingYears(s, lo, hi, factory);
    AppendedAreMissingYears(s, lo, hi, factory);
    assert AppendsOnlyMissing(s, d, lo, hi, factory);
    forall e | e in d
      ensures e in s || (e == factory(e.year) && !ContainsYear(s, e.year) && lo <= e.year <= hi)
    {
      var i :| 0 <= i < |d| && d[i] == e;
      if i < |s| { assert d[i] == d[..|s|][i]; }
    }
    forall e | e in s ensures e in d {
      var i :| 0 <= i < |s| && s[i] == e;
      assert d[..|s|][i] == d[i];
    }
  }

  /** Adds `factory(y)` for every year `y` between the start and end year that no
      entry carries, then re-sorts; an empty series is left as it is. */
  function FillInGapsWith(s: seq<AnnualDecimal>, factory: int -> AnnualDecimal): (r: seq<AnnualDecimal>)
    requires UniqueYears(s)
    requires StampsYear(factory)
    ensures Ascending(r)
    ensures forall e :: e in s ==> e in r
    ensures forall e :: e in r ==> e in s || (e == factory(e.year) && !ContainsYear(s, e.year))
    ensures IsEmpty(s) ==> r == s
  {
    if IsEmpty(s) then s
    else
      StartNotAfterEnd(s);
      var lo, hi := StartYear(s).value, EndYear(s).value;
      var d := AppendMissingYears(s, lo, hi, factory);
      AppendedEntries(s, lo, hi, factory);
      AppendKeepsUniqueYears(s, lo, hi, factory);
      SortKeepsMembers(d);
      Sort(d)
  }

  /** An ascending series whose years lie in `[lo, hi]` and include every year of
      that range holds exactly one entry per year of it. */
  lemma {:induction false} CoveredRangeLength(r: seq<AnnualDecimal>, lo: int, hi: int)
    requires Ascending(r)
    requires lo <= hi + 1
    requires forall i :: 0 <= i < |r| ==> lo <= r[i].year <= hi
    requires CoversYears(r, lo, hi)
    ensures |r| == hi - lo + 1
  {
    if |r| == 0 {
      assert !ContainsYear(r, lo);
    } else {
      assert ContainsYear(r, lo);
      var k :| 0 <= k < |r| && r[k].year == lo;
      assert r[0].year == lo;
      var t := r[1..];
      forall y | lo + 1 <= y <= hi ensures ContainsYear(t, y) {
        assert ContainsYear(r, y);
        var j :| 0 <= j < |r| && r[j].year == y;
        assert t[j - 1] == r[j];
      }
      forall i | 0 <= i < |t| ensures lo + 1 <= t[i].year <= hi {
        assert t[i] == r[i + 1];
      }
      CoveredRangeLength(t, lo + 1, hi);
    }
  }

  /** After filling, the start and end years are unchanged, no year between them
      is missing any more, and the series holds exactly one entry per year of that
      range. */
  lemma FillInGapsCoversRange(s: seq<AnnualDecimal>, factory: int -> AnnualDecimal)
    requires UniqueYears(s)
    requires StampsYear(factory)
    requires IsNotEmpty(s)
    ensures StartYear(FillInGapsWith(s, factory)) == StartYear(s)
    ensures EndYear(FillInGapsWith(s, factory)) == EndYear(s)
    ensures CoversYears(FillInGapsWith(s, factory), StartYear(s).value, EndYear(s).value)
    ensures |FillInGapsWith(s, factory)| == EndYear(s).value - StartYear(s).value + 1
  {
    StartNotAfterEnd(s);
    var lo, hi := StartYear(s).value, EndYear(s).value;
    var r := FillInGapsWith(s, factory);
    FilledYearsWithin(s, factory);
    FilledCoversRange(s, factory);
    FilledKeepsRange(s, factory, r, lo, hi);
    CoveredRangeLength(r, lo, hi);
  }

  lemma FilledKeepsRange(s: seq<AnnualDecimal>, factory: int -> AnnualDecimal, r: seq<AnnualDecimal>, lo: int, hi: int)
    requires UniqueYears(s)
    requires StampsYear(factory)
    requires IsLeastYear(s, lo) && IsGreatestYear(s, hi)
    requires r == FillInGapsWith(s, factory)
    requires forall i :: 0 <= i < |r| ==> lo <= r[i].year <= hi
    ensures StartYear(r) == Success(lo) && EndYear(r) == Success(hi)
  {
    var i :| 0 <= i < |s| && s[i].year == lo;
    assert s[i] in r;
    var j :| 0 <= j < |s| && s[j].year == hi;
    assert s[j] in r;
    LeastYearIsStartYear(r, lo);
    GreatestYearIsEndYear(r, hi);
  }

  lemma FilledYearsWithin(s: seq<AnnualDecimal>, factory: int -> AnnualDecimal)
    requires UniqueYears(s)
    requires StampsYear(factory)
    requires IsNotEmpty(s)
    ensures var r := FillInGapsWith(s, factory);
      forall i :: 0 <= i < |r| ==> StartYear(s).value <= r[i].year <= EndYear(s).value
  {
    StartNotAfterEnd(s);
    var lo, hi := StartYear(s).value, EndYear(s).value;
    var d := AppendMissingYears(s, lo, hi, factory);
    var r := FillInGapsWith(s, factory);
    assert r == Sort(d);
    AppendedEntries(s, lo, hi, factory);
    SortKeepsMembers(d);
    forall i | 0 <= i < |r| ensures lo <= r[i].year <= hi {
      assert r[i] in d;
      if r[i] in s {
        var k :| 0 <= k < |s| && s[k] == r[i];
      }
    }
  }

  lemma FilledCoversRange(s: seq<AnnualDecimal>, factory: int -> AnnualDecimal)
    requires UniqueYears(s)
    requires StampsYear(factory)
    requires IsNotEmpty(s)
    ensures CoversYears(FillInGapsWith(s, factory), StartYear(s).value, EndYear(s).value)
  {
    StartNotAfterEnd(s);
    var lo, hi := StartYear(s).value, EndYear(s).value;
    var d := AppendMissingYears(s, lo, hi, factory);
    var r := FillInGapsWith(s, factory);
    assert r == Sort(d);
    AppendCoversRange(s, lo, hi, factory);
    AppendKeepsUniqueYears(s, lo, hi, factory);
    forall y | lo <= y <= hi ensures ContainsYear(r, y) {
      GetYearOfPermutation(d, r, y);
    }
  }
}

=== FILE: lookup.dfy ===
/** Queries on a series that look entries up by year or scan its values. */
module Lookup {
  import opened Wrappers
  import opened Annual
  import opened Series

  /** Position of the first entry stamped `year`, or -1 (`List.FindIndex`). */
  function IndexOfYear(s: seq<AnnualDecimal>, year: int): (r: int)
    ensures -1 <= r < |s|
    ensures r >= 0 ==> s[r].year == year
    ensures r >= 0 ==> forall k :: 0 <= k < r ==> s[k].year != year
    ensures r < 0 ==> forall k :: 0 <= k < |s| ==> s[k].year != year
  {
    if |s| == 0 then -1
    else if s[0].year == year then 0
    else
      var k := IndexOfYear(s[1..], year);
      if k < 0 then -1 else k + 1
  }

  /** Some entry is stamped `year`. */
  function ContainsYear(s: seq<AnnualDecimal>, year: int): (r: bool)
    ensures r <==> exists i :: 0 <= i < |s| && s[i].year == year
  {
    if |s| == 0 then false
    else if s[0].year == year then true
    else
      var r := ContainsYear(s[1..], year);
      assert r ==> exists i :: 0 <= i < |s| && s[i].year == year by {
        if r {
          var i :| 0 <= i < |s[1..]| && s[1..][i].year == year;
          assert s[i + 1].year == year;
        }
      }
      assert (exists i :: 0 <= i < |s| && s[i].year == year) ==> r by {
        if exists i :: 0 <= i < |s| && s[i].year == year {
          var i :| 0 <= i < |s| && s[i].year == year;
          assert s[1..][i - 1].year == year;
        }
      }
      r
  }

  /** The first entry stamped `year`, or `None` when there is none (`List.Find`,
      which yields `null` for a missing year rather than throwing). */
  function GetYear(s: seq<AnnualDecimal>, year: int): (r: Option<AnnualDecimal>)
    ensures r.Some? <==> ContainsYear(s, year)
    ensures r.Some? ==> r.value in s && r.value.year == year
    ensures UniqueYears(s) ==> forall e :: e in s && e.year == year ==> r == Some(e)
  {
    var k := IndexOfYear(s, year);
    if k < 0 then None else Some(s[k])
  }

  /** With no repeated year, what a year lookup returns depends only on which
      entries are stored, not on their order. */
  lemma GetYearOfPermutation(a: seq<AnnualDecimal>, b: seq<AnnualDecimal>, year: int)
    requires multiset(a) == multiset(b)
    requires UniqueYears(a)
    ensures GetYear(a, year) == GetYear(b, year)
  {
    PermutationKeepsUniqueYears(a, b);
    var ra := GetYear(a, year);
    var rb := GetYear(b, year);
    if ra.Some? {
      assert ra.value in multiset(b);
    }
    if rb.Some? {
      assert rb.value in multiset(a);
    }
  }

  /** The year is present and its value is not null. */
  function YearHasNonNullValue(s: seq<AnnualDecimal>, year: int): (r: bool)
    ensures r ==> ContainsYear(s, year)
    ensures UniqueYears(s) ==>
      (r <==> exists i :: 0 <= i < |s| && s[i].year == year && HasNonNullValue(s[i]))
  {
    ContainsYear(s, year) && HasNonNullValue(GetYear(s, year).value)
  }

  /** The year is present and its value is neither null nor zero. */
  function YearHasNonZeroValue(s: seq<AnnualDecimal>, year: int): (r: bool)
    ensures r ==> YearHasNonNullValue(s, year)
    ensures UniqueYears(s) ==>
      (r <==> exists i :: 0 <= i < |s| && s[i].year == year && HasNonZeroValue(s[i]))
  {
    ContainsYear(s, year) && HasNonZeroValue(GetYear(s, year).value)
  }

  /** At least one stored value is not null. */
  function HasNonNullValues(s: seq<AnnualDecimal>): (r: bool)
    ensures r <==> exists i :: 0 <= i < |s| && HasNonNullValue(s[i])
  {
    if |s| == 0 then false
    else
      assert forall i :: 0 < i < |s| ==> s[i] == s[1..][i - 1];
      HasNonNullValue(s[0]) || HasNonNullValues(s[1..])
  }

  /** At least one stored value is neither null nor zero. */
  function HasNonZeroValues(s: seq<AnnualDecimal>): (r: bool)
    ensures r <==> exists i :: 0 <= i < |s| && HasNonZeroValue(s[i])
    ensures r ==> HasNonNullValues(s)
  {
    if |s| == 0 then false
    else
      assert forall i :: 0 < i < |s| ==> s[i] == s[1..][i - 1];
      NonZeroIsNonNull(s[0]);
      HasNonZeroValue(s[0]) || HasNonZeroValues(s[1..])
  }

  /** The years present, in storage order (ascending on the invariant). */
  function GetYears(s: seq<AnnualDecimal>): (ys: seq<int>)
    ensures |ys| == |s|
    ensures forall i :: 0 <= i < |s| ==> ys[i] == s[i].year
    ensures forall y :: y in ys <==> ContainsYear(s, y)
    ensures Ascending(s) ==> forall i, j :: 0 <= i < j < |ys| ==> ys[i] < ys[j]
  {
    if |s| == 0 then []
    else [s[0].year] + GetYears(s[1..])
  }

  /** Number of stored entries. */
  function Count(s: seq<AnnualDecimal>): (n: nat)
    ensures n == |GetYears(s)|
  {
    |s|
  }

  function IsEmpty(s: seq<AnnualDecimal>): (r: bool)
    ensures r <==> Count(s) == 0
    ensures r ==> !HasNonNullValues(s)
  {
    |s| == 0
  }

  function IsNotEmpty(s: seq<AnnualDecimal>): (r: bool)
    ensures r <==> !IsEmpty(s)
  {
    |s| > 0
  }

  /** The container after `Clear`: nothing is left, whatever was stored. */
  function Clear(s: seq<AnnualDecimal>): (r: seq<AnnualDecimal>)
    ensures IsEmpty(r) && Ascending(r)
    ensures forall y :: !ContainsYear(r, y)
  {
    []
  }
}

=== FILE: mutation.dfy ===
/** Add-or-replace by year, for one entry (`Add`) and for a batch (`AddRange`). */
module Mutation {
  import opened Wrappers
  import opened Annual
  import opened Series
  import opened Lookup

  /** The stored entries after storing `v`, as a multiset: the entry holding
      `v`'s year, if any, gives way to `v`. */
  function Stored(s: seq<AnnualDecimal>, v: AnnualDecimal): multiset<AnnualDecimal>
  {
    match GetYear(s, v.year)
    case None => multiset(s) + multiset{v}
    case Some(previous) => multiset(s) - multiset{previous} + multiset{v}
  }

  /** Replaces the first entry stamped with `v`'s year by `v`, or appends `v`;
      the order is not restored (the private `AddData`). */
  function AddData(s: seq<AnnualDecimal>, v: AnnualDecimal): (r: seq<AnnualDecimal>)
    ensures multiset(r) == Stored(s, v)
    ensures UniqueYears(s) ==> UniqueYears(r)
  {
    var k := IndexOfYear(s, v.year);
    if k >= 0 then
      assert s[k] in s;
      assert multiset(s[k := v]) == multiset(s) - multiset{s[k]} + multiset{v};
      var r := s[k := v];
      assert UniqueYears(s) ==> UniqueYears(r) by {
        if UniqueYears(s) {
          forall i, j | 0 <= i < |r| && 0 <= j < |r| && i != j
            ensures r[i].year != r[j].year
          {
            if i != k && j != k {
              assert r[i] == s[i] && r[j] == s[j];
            }
          }
        }
      }
      r
    else
      s + [v]
  }

  /** Add-or-replace one entry, then re-sort. */
  function Add(s: seq<AnnualDecimal>, v: AnnualDecimal): (r: seq<AnnualDecimal>)
    ensures NonDecreasing(r)
    ensures v in r
    ensures |r| == if ContainsYear(s, v.year) then |s| else |s| + 1
    ensures forall e: AnnualDecimal :: e.year != v.year ==> multiset(r)[e] == multiset(s)[e]
    ensures UniqueYears(s) ==> Ascending(r)
    ensures UniqueYears(s) ==> GetYear(r, v.year) == Some(v)
    ensures UniqueYears(s) ==> forall e :: e in r && e.year == v.year ==> e == v
  {
    var r := Sort(AddData(s, v));
    AddedCounts(s, v, r);
    if UniqueYears(s) then
      AddedUniquely(s, v, r);
      r
    else r
  }

  lemma AddedCounts(s: seq<AnnualDecimal>, v: AnnualDecimal, r: seq<AnnualDecimal>)
    requires multiset(r) == Stored(s, v)
    ensures v in r
    ensures |r| == if ContainsYear(s, v.year) then |s| else |s| + 1
    ensures forall e: AnnualDecimal :: e.year != v.year ==> multiset(r)[e] == multiset(s)[e]
  {
    assert v in multiset(r);
    assert |r| == |multiset(r)|;
    var g := GetYear(s, v.year);
    if g.Some? {
      assert g.value in multiset(s);
    }
  }

  lemma AddedUniquely(s: seq<AnnualDecimal>, v: AnnualDecimal, r: seq<AnnualDecimal>)
    requires UniqueYears(s)
    requires r == Sort(AddData(s, v))
    ensures Ascending(r)
    ensures GetYear(r, v.year) == Some(v)
    ensures forall e :: e in r && e.year == v.year ==> e == v
  {
    var d := AddData(s, v);
    assert UniqueYears(d);
    PermutationKeepsUniqueYears(d, r);
    assert v in multiset(r);
  }

  /** Add-or-replace every entry of `vs` in order, without re-sorting. */
  function AddAll(s: seq<AnnualDecimal>, vs: seq<AnnualDecimal>): (r: seq<AnnualDecimal>)
    ensures UniqueYears(s) ==> UniqueYears(r)
    decreases |vs|
  {
    if |vs| == 0 then s else AddAll(AddData(s, vs[0]), vs[1..])
  }

  /** Add-or-replace a batch in input order, then sort once. */
  function AddRange(s: seq<AnnualDecimal>, vs: seq<AnnualDecimal>): (r: seq<AnnualDecimal>)
    ensures NonDecreasing(r)
    ensures UniqueYears(s) ==> Ascending(r)
  {
    Sort(AddAll(s, vs))
  }

  /** The reference behaviour of a batch: `Add` each entry in turn. */
  function AddEach(s: seq<AnnualDecimal>, vs: seq<AnnualDecimal>): (r: seq<AnnualDecimal>)
    decreases |vs|
  {
    if |vs| == 0 then s else AddEach(Add(s, vs[0]), vs[1..])
  }

  /** The last entry of `vs` stamped `year`: the one a batch leaves in place. */
  function LastWithYear(vs: seq<AnnualDecimal>, year: int): (r: Option<AnnualDecimal>)
    ensures r.Some? ==> r.value in vs && r.value.year == year
    ensures r.None? <==> forall i :: 0 <= i < |vs| ==> vs[i].year != year
    ensures r.Some? ==>
      exists i :: 0 <= i < |vs| && vs[i] == r.value && (forall j :: i < j < |vs| ==> vs[j].year != year)
  {
    if |vs| == 0 then None
    else
      assert forall i :: 1 <= i < |vs| ==> vs[i] == vs[1..][i - 1];
      var later := LastWithYear(vs[1..], year);
      if later.Some? then
        var i' :| 0 <= i' < |vs| - 1 && vs[1..][i'] == later.value &&
          (forall j :: i' < j < |vs| - 1 ==> vs[1..][j].year != year);
        assert vs[i' + 1] == later.value;
        assert forall j :: i' + 1 < j < |vs| ==> vs[j] == vs[1..][j - 1];
        later
      else if vs[0].year == year then Some(vs[0])
      else None
  }

  /** Lookup after storing one entry, on a series without repeated years. */
  lemma {:induction false} GetYearAfterAddData(s: seq<AnnualDecimal>, v: AnnualDecimal, year: int)
    requires UniqueYears(s)
    ensures GetYear(AddData(s, v), year) == if year == v.year then Some(v) else GetYear(s, year)
  {
    var r := AddData(s, v);
    assert v in multiset(r);
    if year != v.year {
      var a := GetYear(s, year);
      var b := GetYear(r, year);
      if a.Some? {
        assert multiset(r)[a.value] == multiset(s)[a.value] by {
          if GetYear(s, v.year).Some? {
            assert GetYear(s, v.year).value != a.value;
          }
        }
        assert a.value in multiset(r);
      }
      if b.Some? {
        assert b.value != v;
        assert b.value in multiset(r);
        assert b.value in multiset(s);
      }
    }
  }

  /** `AddRange`: for every year, a later entry of the batch wins over an earlier
      one, and a year the batch does not mention keeps what it held. */
  lemma {:induction false} AddAllLaterWins(s: seq<AnnualDecimal>, vs: seq<AnnualDecimal>, year: int)
    requires UniqueYears(s)
    ensures GetYear(AddAll(s, vs), year) ==
      if LastWithYear(vs, year).Some? then LastWithYear(vs, year) else GetYear(s, year)
    decreases |vs|
  {
    if |vs| > 0 {
      GetYearAfterAddData(s, vs[0], year);
      AddAllLaterWins(AddData(s, vs[0]), vs[1..], year);
    }
  }

  lemma AddRangeLaterWins(s: seq<AnnualDecimal>, vs: seq<AnnualDecimal>, year: int)
    requires UniqueYears(s)
    ensures GetYear(AddRange(s, vs), year) ==
      if LastWithYear(vs, year).Some? then LastWithYear(vs, year) else GetYear(s, year)
  {
    AddAllLaterWins(s, vs, year);
    GetYearOfPermutation(AddAll(s, vs), AddRange(s, vs), year);
  }

  /** Storing into a series and into its sorted form stores the same entries. */
  lemma AddDataCommutesWithSort(t: seq<AnnualDecimal>, v: AnnualDecimal)
    requires UniqueYears(t)
    ensures Sort(AddData(t, v)) == Sort(AddData(Sort(t), v))
  {
    GetYearOfPermutation(t, Sort(t), v.year);
    AscendingPermutationsEqual(Sort(AddData(t, v)), Sort(AddData(Sort(t), v)));
  }

  lemma {:induction false} SortAddAll(t: seq<AnnualDecimal>, vs: seq<AnnualDecimal>)
    requires UniqueYears(t)
    ensures Sort(AddAll(t, vs)) == AddEach(Sort(t), vs)
    decreases |vs|
  {
    if |vs| > 0 {
      AddDataCommutesWithSort(t, vs[0]);
      SortAddAll(AddData(t, vs[0]), vs[1..]);
    }
  }

  /** Deferring the sort to the end of a batch changes nothing: `AddRange` ends in
      the state repeated `Add` calls reach. */
  lemma AddRangeIsRepeatedAdd(s: seq<AnnualDecimal>, vs: seq<AnnualDecimal>)
    requires Ascending(s)
    ensures AddRange(s, vs) == AddEach(s, vs)
  {
    SortAddAll(s, vs);
    SortKeepsAscending(s);
  }

  /** Storing an entry that is already stored changes nothing. */
  lemma StoringPresentEntry(r: seq<AnnualDecimal>, v: AnnualDecimal)
    requires UniqueYears(r) && v in r
    ensures AddData(r, v) == r
  {
    var k := IndexOfYear(r, v.year);
    var j :| 0 <= j < |r| && r[j] == v;
    assert k == j;
    assert r[k := v] == r;
  }

  /** Adding the same entry twice is the same as adding it once. */
  lemma AddIdempotent(s: seq<AnnualDecimal>, v: AnnualDecimal)
    requires UniqueYears(s)
    ensures Add(Add(s, v), v) == Add(s, v)
  {
    var r := Add(s, v);
    AscendingIsSortedAndUnique(r);
    StoringPresentEntry(r, v);
    SortKeepsAscending(r);
  }
}

=== FILE: range.dfy ===
/** First and last years of a series (LINQ `Min`/`Max` over the years, which
    throw on an empty sequence), over all entries or over non-zero ones only. */
module YearRange {
  import opened Wrappers
  import opened Annual
  import opened Series
  import opened Lookup

  /** `m` is the smallest year stored in `s`. */
  predicate IsLeastYear(s: seq<AnnualDecimal>, m: int)
  {
    (exists i :: 0 <= i < |s| && s[i].year == m) &&
    (forall i :: 0 <= i < |s| ==> m <= s[i].year)
  }

  /** `m` is the largest year stored in `s`. */
  predicate IsGreatestYear(s: seq<AnnualDecimal>, m: int)
  {
    (exists i :: 0 <= i < |s| && s[i].year == m) &&
    (forall i :: 0 <= i < |s| ==> s[i].year <= m)
  }

  function MinYear(s: seq<AnnualDecimal>): (m: int)
    requires |s| > 0
    ensures IsLeastYear(s, m)
  {
    if |s| == 1 then s[0].year
    else
      var m' := MinYear(s[1..]);
      assert forall i :: 1 <= i < |s| ==> s[i] == s[1..][i - 1];
      var i' :| 0 <= i' < |s[1..]| && s[1..][i'].year == m';
      assert s[i' + 1].year == m';
      if s[0].year <= m' then s[0].year else m'
  }

  function MaxYear(s: seq<AnnualDecimal>): (m: int)
    requires |s| > 0
    ensures IsGreatestYear(s, m)
  {
    if |s| == 1 then s[0].year
    else
      var m' := MaxYear(s[1..]);
      assert forall i :: 1 <= i < |s| ==> s[i] == s[1..][i - 1];
      var i' :| 0 <= i' < |s[1..]| && s[1..][i'].year == m';
      assert s[i' + 1].year == m';
      if s[0].year >= m' then s[0].year else m'
  }

  /** Lowest stored year, whether or not its value is null or zero; fails on an
      empty series. */
  function StartYear(s: seq<AnnualDecimal>): (r: Result<int, SeriesError>)
    ensures r.Failure? <==> IsEmpty(s)
    ensures r.Failure? ==> r.error == EmptyRange
    ensures r.Success? ==> IsLeastYear(s, r.value)
  {
    if |s| == 0 then Failure(EmptyRange) else Success(MinYear(s))
  }

  /** Highest stored year, whether or not its value is null or zero; fails on an
      empty series. */
  function EndYear(s: seq<AnnualDecimal>): (r: Result<int, SeriesError>)
    ensures r.Failure? <==> IsEmpty(s)
    ensures r.Failure? ==> r.error == EmptyRange
    ensures r.Success? ==> IsGreatestYear(s, r.value)
  {
    if |s| == 0 then Failure(EmptyRange) else Success(MaxYear(s))
  }

  lemma LeastYearUnique(s: seq<AnnualDecimal>, m1: int, m2: int)
    requires IsLeastYear(s, m1) && IsLeastYear(s, m2)
    ensures m1 == m2
  {
    var i :| 0 <= i < |s| && s[i].year == m1;
    var j :| 0 <= j < |s| && s[j].year == m2;
    assert m1 <= s[j].year && m2 <= s[i].year;
  }

  lemma GreatestYearUnique(s: seq<AnnualDecimal>, m1: int, m2: int)
    requires IsGreatestYear(s, m1) && IsGreatestYear(s, m2)
    ensures m1 == m2
  {
    var i :| 0 <= i < |s| && s[i].year == m1;
    var j :| 0 <= j < |s| && s[j].year == m2;
    assert s[j].year <= m1 && s[i].year <= m2;
  }

  /** A least (greatest) year is unique, so any witness is the one the queries return. */
  lemma LeastYearIsStartYear(s: seq<AnnualDecimal>, m: int)
    requires IsLeastYear(s, m)
    ensures StartYear(s) == Success(m)
  {
    var r := StartYear(s);
    assert |s| > 0;
    LeastYearUnique(s, m, r.value);
  }

  lemma GreatestYearIsEndYear(s: seq<AnnualDecimal>, m: int)
    requires IsGreatestYear(s, m)
    ensures EndYear(s) == Success(m)
  {
    var r := EndYear(s);
    assert |s| > 0;
    GreatestYearUnique(s, m, r.value);
  }

  /** On the container's invariant the range is given by the first and last entries. */
  lemma RangeOfAscending(s: seq<AnnualDecimal>)
    requires Ascending(s) && |s| > 0
    ensures StartYear(s) == Success(s[0].year)
    ensures EndYear(s) == Success(s[|s| - 1].year)
  {
    LeastYearIsStartYear(s, s[0].year);
    GreatestYearIsEndYear(s, s[|s| - 1].year);
  }

  /** A non-empty series has its start year no later than its end year. */
  lemma StartNotAfterEnd(s: seq<AnnualDecimal>)
    requires |s| > 0
    ensures StartYear(s).value <= EndYear(s).value
  {
    var i :| 0 <= i < |s| && s[i].year == EndYear(s).value;
  }

  /** The entries whose value is neither null nor zero, in storage order
      (`Where(HasNonZeroValue)`). */
  function NonZeroEntries(s: seq<AnnualDecimal>): (r: seq<AnnualDecimal>)
    ensures forall e :: e in r <==> e in s && HasNonZeroValue(e)
    ensures |r| == 0 <==> !HasNonZeroValues(s)
  {
    if |s| == 0 then []
    else
      assert forall i :: 1 <= i < |s| ==> s[i] == s[1..][i - 1];
      assert forall e :: e in s <==> e == s[0] || e in s[1..];
      var rest := NonZeroEntries(s[1..]);
      if HasNonZeroValue(s[0]) then [s[0]] + rest else rest
  }

  /** `m` is the smallest year among entries with a non-zero value. */
  predicate IsLeastNonZeroYear(s: seq<AnnualDecimal>, m: int)
  {
    (exists i :: 0 <= i < |s| && s[i].year == m && HasNonZeroValue(s[i])) &&
    (forall i :: 0 <= i < |s| && HasNonZeroValue(s[i]) ==> m <= s[i].year)
  }

  /** `m` is the largest year among entries with a non-zero value. */
  predicate IsGreatestNonZeroYear(s: seq<AnnualDecimal>, m: int)
  {
    (exists i :: 0 <= i < |s| && s[i].year == m && HasNonZeroValue(s[i])) &&
    (forall i :: 0 <= i < |s| && HasNonZeroValue(s[i]) ==> s[i].year <= m)
  }

  /** Lowest year holding a non-zero value; fails when no such year exists
      (empty, or every value null or zero). */
  function StartYearOfNonZeroValue(s: seq<AnnualDecimal>): (r: Result<int, SeriesError>)
    ensures r.Failure? <==> !HasNonZeroValues(s)
    ensures r.Failure? ==> r.error == EmptyRange
    ensures r.Success? ==> IsLeastNonZeroYear(s, r.value)
  {
    var nz := NonZeroEntries(s);
    var r := StartYear(nz);
    if r.Success? then
      var k :| 0 <= k < |nz| && nz[k].year == r.value;
      assert nz[k] in s;
      assert forall i :: 0 <= i < |s| && HasNonZeroValue(s[i]) ==> s[i] in nz;
      r
    else r
  }

  /** Highest year holding a non-zero value; fails when no such year exists. */
  function EndYearOfNonZeroValue(s: seq<AnnualDecimal>): (r: Result<int, SeriesError>)
    ensures r.Failure? <==> !HasNonZeroValues(s)
    ensures r.Failure? ==> r.error == EmptyRange
    ensures r.Success? ==> IsGreatestNonZeroYear(s, r.value)
  {
    var nz := NonZeroEntries(s);
    var r := EndYear(nz);
    if r.Success? then
      var k :| 0 <= k < |nz| && nz[k].year == r.value;
      assert nz[k] in s;
      assert forall i :: 0 <= i < |s| && HasNonZeroValue(s[i]) ==> s[i] in nz;
      r
    else r
  }

  /** The non-zero range lies within the overall range. */
  lemma NonZeroRangeWithinRange(s: seq<AnnualDecimal>)
    requires HasNonZeroValues(s)
    ensures StartYear(s).value <= StartYearOfNonZeroValue(s).value
    ensures EndYearOfNonZeroValue(s).value <= EndYear(s).value
  {
    var lo := StartYearOfNonZeroValue(s).value;
    var hi := EndYearOfNonZeroValue(s).value;
    var i :| 0 <= i < |s| && s[i].year == lo && HasNonZeroValue(s[i]);
    var j :| 0 <= j < |s| && s[j].year == hi && HasNonZeroValue(s[j]);
  }
}

=== FILE: scenarios.dfy ===
/** The concrete cases the repository's test suite checks, stated about the model. */
module Scenarios {
  import opened Wrappers
  import opened Annual
  import opened Series
  import opened Lookup
  import opened YearRange
  import opened Construction
  import opened Mutation
  import opened Gaps
  import opened Trim

  /** An entry holding a value. */
  function Valued(year: int, value: int): AnnualDecimal
  {
    AnnualDecimal(year, Some(value))
  }

  /** An entry for a year without a value. */
  function Null(year: int): AnnualDecimal
  {
    AnnualDecimal(year, None)
  }

  /** Three entries all reporting year 0 are renumbered 0, 1, 2 in input order. */
  lemma ReindexesUntaggedInput()
    ensures FromValues(Some([Valued(0, 1), Valued(0, 2), Valued(0, 3)])) == Success([Valued(0, 1), Valued(1, 2), Valued(2, 3)])
  {
    var input := [Valued(0, 1), Valued(0, 2), Valued(0, 3)];
    assert AllSameYear(input);
    assert PrepareDataFromJson(input) == [Valued(0, 1), Valued(1, 2), Valued(2, 3)];
    SortKeepsAscending([Valued(0, 1), Valued(1, 2), Valued(2, 3)]);
  }

  /** A year given twice makes construction fail, naming that year. */
  lemma RejectsDuplicateYear(input: seq<AnnualDecimal>)
    requires input == [Valued(20, 2), Valued(10, 1), Valued(30, 4), Valued(20, 3)]
    ensures FromValues(Some(input)) == Failure(DuplicateYears({20}))
  {
    assert input[0].year != input[1].year;
    assert PrepareDataFromJson(input) == input;
    assert input[0].year == input[3].year;
    assert forall i, j :: 0 <= i < j < |input| && input[i].year == input[j].year ==> input[i].year == 20;
    OnlyRepeatedYear(input, 20);
  }

  /** When `y` is the one year two entries share, it is the only duplicate. */
  lemma OnlyRepeatedYear(s: seq<AnnualDecimal>, y: int)
    requires exists i, j :: 0 <= i < j < |s| && s[i].year == y && s[j].year == y
    requires forall i, j :: 0 <= i < j < |s| && s[i].year == s[j].year ==> s[i].year == y
    ensures Duplicates(s) == {y}
  {
    var d := Duplicates(s);
    assert y in d;
    forall z | z in d ensures z == y {
      var i, j :| 0 <= i < j < |s| && s[i].year == z && s[j].year == z;
    }
  }

  /** Entries supplied out of order come out sorted by year. */
  lemma SortsScrambledInput()
    ensures FromValues(Some([Valued(20, 2), Valued(10, 1), Valued(40, 4), Valued(30, 3)])) ==
      Success([Valued(10, 1), Valued(20, 2), Valued(30, 3), Valued(40, 4)])
  {
    var sorted := [Valued(10, 1), Valued(20, 2), Valued(30, 3), Valued(40, 4)];
    var input := [Valued(20, 2), Valued(10, 1), Valued(40, 4), Valued(30, 3)];
    assert multiset(input) == multiset(sorted);
    FromValuesRoundTrip(sorted, input);
  }

  /** Writing a year twice keeps one entry, holding the second value. */
  lemma RewritingTheSameYear()
    ensures Add(Add([], Valued(10, 100)), Valued(10, 200)) == [Valued(10, 200)]
  {
    var once := Add([], Valued(10, 100));
    assert once == [Valued(10, 100)];
  }

  /** The gap filler of the test: value 55 for any year. */
  function Filler55(year: int): AnnualDecimal
  {
    Valued(year, 55)
  }

  /** The gap-filling loop over 10..15 appends entries for 11, 12 and 14. */
  lemma FillLoopAppends11To14(s: seq<AnnualDecimal>, appended: seq<AnnualDecimal>)
    requires s == [Valued(10, 99), Valued(13, 99), Valued(15, 99)]
    requires appended == [Valued(10, 99), Valued(13, 99), Valued(15, 99), Valued(11, 55), Valued(12, 55), Valued(14, 55)]
    ensures AppendMissingYears(s, 10, 15, Filler55) == appended
  {
    var s1 := s + [Valued(11, 55)];
    var s2 := s1 + [Valued(12, 55)];
    assert appended == s2 + [Valued(14, 55)];
    assert ContainsYear(s, 10) by { assert s[0].year == 10; }
    assert ContainsYear(s2, 13) by { assert s2[1].year == 13; }
    assert ContainsYear(appended, 15) by { assert appended[2].year == 15; }
    assert AppendMissingYears(appended, 15, 15, Filler55) == appended;
    assert AppendMissingYears(s2, 14, 15, Filler55) == appended;
    assert AppendMissingYears(s2, 13, 15, Filler55) == appended;
    assert AppendMissingYears(s1, 12, 15, Filler55) == appended;
    assert AppendMissingYears(s, 11, 15, Filler55) == appended;
  }

  /** Years 10, 13 and 15 are filled in with 55 for 11, 12 and 14. */
  lemma FillsGaps(s: seq<AnnualDecimal>)
    requires s == [Valued(10, 99), Valued(13, 99), Valued(15, 99)]
    ensures FillInGapsWith(s, Filler55) ==
      [Valued(10, 99), Valued(11, 55), Valued(12, 55), Valued(13, 99), Valued(14, 55), Valued(15, 99)]
  {
    var appended := [Valued(10, 99), Valued(13, 99), Valued(15, 99), Valued(11, 55), Valued(12, 55), Valued(14, 55)];
    var expected := [Valued(10, 99), Valued(11, 55), Valued(12, 55), Valued(13, 99), Valued(14, 55), Valued(15, 99)];
    FillLoopAppends11To14(s, appended);
    FilledEntriesInYearOrder(appended, expected);
    FilledYearsAscend(expected);
    GappedSeriesRange(s);
    FilledIsSortedLoopResult(s, Filler55, 10, 15, appended, expected);
  }

  lemma GappedSeriesRange(s: seq<AnnualDecimal>)
    requires s == [Valued(10, 99), Valued(13, 99), Valued(15, 99)]
    ensures UniqueYears(s) && IsNotEmpty(s)
    ensures StartYear(s) == Success(10) && EndYear(s) == Success(15)
  {
    assert Ascending(s);
    RangeOfAscending(s);
  }

  lemma FilledEntriesInYearOrder(appended: seq<AnnualDecimal>, expected: seq<AnnualDecimal>)
    requires appended == [Valued(10, 99), Valued(13, 99), Valued(15, 99), Valued(11, 55), Valued(12, 55), Valued(14, 55)]
    requires expected == [Valued(10, 99), Valued(11, 55), Valued(12, 55), Valued(13, 99), Valued(14, 55), Valued(15, 99)]
    ensures multiset(appended) == multiset(expected)
  {
  }

  lemma FilledYearsAscend(expected: seq<AnnualDecimal>)
    requires expected == [Valued(10, 99), Valued(11, 55), Valued(12, 55), Valued(13, 99), Valued(14, 55), Valued(15, 99)]
    ensures Ascending(expected)
  {
  }

  /** The filled series is the loop's output in ascending order. */
  lemma FilledIsSortedLoopResult(s: seq<AnnualDecimal>, factory: int -> AnnualDecimal,
                                 lo: int, hi: int, appended: seq<AnnualDecimal>, expected: seq<AnnualDecimal>)
    requires UniqueYears(s) && StampsYear(factory) && IsNotEmpty(s)
    requires StartYear(s) == Success(lo) && EndYear(s) == Success(hi)
    requires appended == AppendMissingYears(s, lo, hi, factory)
    requires Ascending(expected) && multiset(appended) == multiset(expected)
    ensures FillInGapsWith(s, factory) == expected
  {
    AscendingPermutationsEqual(FillInGapsWith(s, factory), expected);
  }

  /** Null values at the start are trimmed up to the first value. */
  lemma TrimsNullStart(s: seq<AnnualDecimal>, r: seq<AnnualDecimal>)
    requires s == [Null(10), Null(11), Valued(12, 12), Valued(13, 13), Null(14), Null(15)]
    requires TrimmedAtStart(s, r)
    ensures r == [Valued(12, 12), Valued(13, 13), Null(14), Null(15)]
  {
    assert TrimmedAtStart(s, s[2..]);
    TrimmedAtStartUnique(s, r, s[2..]);
  }

  /** Null values at the end are trimmed back to the last value. */
  lemma TrimsNullEnd(s: seq<AnnualDecimal>, r: seq<AnnualDecimal>)
    requires s == [Null(10), Null(11), Valued(12, 12), Valued(13, 13), Null(14), Null(15)]
    requires TrimmedAtEnd(s, r)
    ensures r == [Null(10), Null(11), Valued(12, 12), Valued(13, 13)]
  {
    assert TrimmedAtEnd(s, s[..4]);
    TrimmedAtEndUnique(s, r, s[..4]);
  }

  /** Both trims together leave only the years with values. */
  lemma TrimsNullEnds(s: seq<AnnualDecimal>, t: seq<AnnualDecimal>, r: seq<AnnualDecimal>)
    requires s == [Null(10), Null(11), Valued(12, 12), Valued(13, 13), Null(14), Null(15)]
    requires TrimmedAtStart(s, t) && TrimmedAtEnd(t, r)
    ensures r == [Valued(12, 12), Valued(13, 13)]
  {
    TrimsNullStart(s, t);
    assert TrimmedAtEnd(t, t[..2]);
    TrimmedAtEndUnique(t, r, t[..2]);
  }

  /** All-zero values: the overall range exists, the non-zero range does not. */
  lemma AllZeroHasNoNonZeroRange()
    ensures StartYear([Valued(10, 0), Valued(20, 0)]) == Success(10)
    ensures EndYear([Valued(10, 0), Valued(20, 0)]) == Success(20)
    ensures StartYearOfNonZeroValue([Valued(10, 0), Valued(20, 0)]) == Failure(EmptyRange)
    ensures EndYearOfNonZeroValue([Valued(10, 0), Valued(20, 0)]) == Failure(EmptyRange)
  {
    RangeOfAscending([Valued(10, 0), Valued(20, 0)]);
  }
}

=== FILE: series.dfy ===
/** The container's data model: a sequence of annual payloads, the predicates
    that state its invariants, and the re-sort every mutation ends with. */
module Series {
  import opened Annual

  /** The two ways an operation on a series can fail. */
  datatype SeriesError =
    | DuplicateYears(years: set<int>)  // construction input names a year twice
    | EmptyRange                       // a minimum or maximum over no year at all

  /** No two entries share a year. */
  predicate UniqueYears(s: seq<AnnualDecimal>)
  {
    forall i, j :: 0 <= i < |s| && 0 <= j < |s| && i != j ==> s[i].year != s[j].year
  }

  /** Years never go down: what a sort by year guarantees. */
  predicate NonDecreasing(s: seq<AnnualDecimal>)
  {
    forall i, j :: 0 <= i < j < |s| ==> s[i].year <= s[j].year
  }

  /** Years strictly go up: the invariant the container keeps after every mutation
      (sorted, and at most one entry per year). */
  predicate Ascending(s: seq<AnnualDecimal>)
  {
    forall i, j :: 0 <= i < j < |s| ==> s[i].year < s[j].year
  }

  lemma AscendingIsSortedAndUnique(s: seq<AnnualDecimal>)
    ensures Ascending(s) <==> NonDecreasing(s) && UniqueYears(s)
  {
  }

  /** Places `x` before the first entry whose year is greater or equal. */
  function Insert(x: AnnualDecimal, s: seq<AnnualDecimal>): (r: seq<AnnualDecimal>)
    requires NonDecreasing(s)
    ensures NonDecreasing(r)
    ensures multiset(r) == multiset(s) + multiset{x}
    ensures r[0] == x || (|s| > 0 && r[0] == s[0])
  {
    if |s| == 0 then [x]
    else if x.year <= s[0].year then [x] + s
    else
      var t := Insert(x, s[1..]);
      assert s == [s[0]] + s[1..];
      [s[0]] + t
  }

  /** The re-sort by year every mutation of the container ends with. Only the
      outcome matters (sorted, same entries), not the algorithm. */
  function Sort(s: seq<AnnualDecimal>): (r: seq<AnnualDecimal>)
    ensures NonDecreasing(r)
    ensures multiset(r) == multiset(s)
    ensures UniqueYears(s) ==> Ascending(r)
  {
    if |s| == 0 then []
    else
      assert s == [s[0]] + s[1..];
      var r := Insert(s[0], Sort(s[1..]));
      if UniqueYears(s) then
        PermutationKeepsUniqueYears(s, r);
        r
      else r
  }

  /** An entry occurs at most once in a sequence without repeated years. */
  lemma {:induction false} UniqueYearsCountOnce(s: seq<AnnualDecimal>, x: AnnualDecimal)
    requires UniqueYears(s)
    ensures multiset(s)[x] <= 1
  {
    if |s| > 0 {
      assert s == [s[0]] + s[1..];
      assert UniqueYears(s[1..]) by {
        forall i, j | 0 <= i < |s[1..]| && 0 <= j < |s[1..]| && i != j
          ensures s[1..][i].year != s[1..][j].year
        {
          assert s[1..][i] == s[i + 1] && s[1..][j] == s[j + 1];
        }
      }
      UniqueYearsCountOnce(s[1..], x);
      if x == s[0] {
        forall k | 0 <= k < |s[1..]| ensures s[1..][k] != x {
          assert s[1..][k] == s[k + 1];
        }
        assert x !in s[1..];
      }
    }
  }

  /** Reordering entries cannot create a repeated year. */
  lemma PermutationKeepsUniqueYears(a: seq<AnnualDecimal>, b: seq<AnnualDecimal>)
    requires multiset(a) == multiset(b)
    requires UniqueYears(a)
    ensures UniqueYears(b)
  {
    forall i, j | 0 <= i < |b| && 0 <= j < |b| && i < j
      ensures b[i].year != b[j].year
    {
      if b[i] == b[j] {
        assert b == b[..j] + b[j..];
        assert b[i] in b[..j];
        assert b[j] == b[j..][0];
        assert multiset(b)[b[i]] == multiset(b[..j])[b[i]] + multiset(b[j..])[b[i]];
        UniqueYearsCountOnce(a, b[i]);
      } else {
        assert b[i] in multiset(a) && b[j] in multiset(a);
        var p :| 0 <= p < |a| && a[p] == b[i];
        var q :| 0 <= q < |a| && a[q] == b[j];
      }
    }
  }

  lemma AscendingTail(s: seq<AnnualDecimal>)
    requires Ascending(s) && |s| > 0
    ensures Ascending(s[1..])
  {
    forall i, j | 0 <= i < j < |s| - 1 ensures s[1..][i].year < s[1..][j].year {
      assert s[1..][i] == s[i + 1] && s[1..][j] == s[j + 1];
    }
  }

  /** Two ascending sequences holding the same entries start with the same one. */
  lemma AscendingPermutationsSameHead(a: seq<AnnualDecimal>, b: seq<AnnualDecimal>)
    requires Ascending(a) && Ascending(b)
    requires multiset(a) == multiset(b) && |a| > 0 && |b| > 0
    ensures a[0] == b[0]
  {
    assert a[0] in multiset(b);
    var j :| 0 <= j < |b| && b[j] == a[0];
    assert b[0] in multiset(a);
    var i :| 0 <= i < |a| && a[i] == b[0];
    assert a[0].year <= b[0].year;
    assert j == 0;
  }

  lemma TailMultiset(a: seq<AnnualDecimal>)
    requires |a| > 0
    ensures multiset(a[1..]) == multiset(a) - multiset{a[0]}
  {
    assert a == [a[0]] + a[1..];
  }

  /** Two ascending sequences holding the same entries are equal: the sorted form
      of a duplicate-free collection does not depend on the sort used. */
  lemma {:induction false} AscendingPermutationsEqual(a: seq<AnnualDecimal>, b: seq<AnnualDecimal>)
    requires Ascending(a) && Ascending(b)
    requires multiset(a) == multiset(b)
    ensures a == b
  {
    assert |a| == |multiset(a)| == |multiset(b)| == |b|;
    if |a| > 0 {
      AscendingPermutationsSameHead(a, b);
      TailMultiset(a);
      TailMultiset(b);
      AscendingTail(a);
      AscendingTail(b);
      AscendingPermutationsEqual(a[1..], b[1..]);
      assert a == [a[0]] + a[1..];
      assert b == [b[0]] + b[1..];
    }
  }

  /** Re-sorting an ascending series leaves it as it is. */
  lemma SortKeepsAscending(s: seq<AnnualDecimal>)
    requires Ascending(s)
    ensures Sort(s) == s
  {
    AscendingPermutationsEqual(Sort(s), s);
  }

  /** Sorting neither adds nor drops an entry. */
  lemma SortKeepsMembers(s: seq<AnnualDecimal>)
    ensures forall e :: e in Sort(s) <==> e in s
  {
    var r := Sort(s);
    forall e ensures e in r <==> e in s {
      assert e in r <==> e in multiset(r);
    }
  }
}

=== FILE: trim.dfy ===
/** Dropping the value-less entries at either end of a series. */
module Trim {
  import opened Annual
  import opened Series

  /** Drops the first entry equal to `x`, if any (`List.Remove`). */
  function RemoveFirst(s: seq<AnnualDecimal>, x: AnnualDecimal): (r: seq<AnnualDecimal>)
    ensures x in s ==> multiset(r) == multiset(s) - multiset{x}
    ensures x in s ==> RemovedFirstOccurrence(s, x, r)
    ensures x !in s ==> r == s
  {
    if |s| == 0 then s
    else if s[0] == x then
      assert s == [s[0]] + s[1..];
      assert CutAt(s, x, s[1..], 0);
      s[1..]
    else
      assert s == [s[0]] + s[1..];
      var rest := RemoveFirst(s[1..], x);
      if x in s[1..] then
        RemovedAfterHead(s, x, rest);
        [s[0]] + rest
      else
        [s[0]] + rest
  }

  /** `r` is `s` with its first occurrence of `x` cut out, the rest in order. */
  ghost predicate RemovedFirstOccurrence(s: seq<AnnualDecimal>, x: AnnualDecimal, r: seq<AnnualDecimal>)
  {
    exists i :: CutAt(s, x, r, i)
  }

  /** Position `i` holds the first occurrence of `x` in `s`, and `r` is `s` without it. */
  predicate CutAt(s: seq<AnnualDecimal>, x: AnnualDecimal, r: seq<AnnualDecimal>, i: int)
  {
    0 <= i < |s| && s[i] == x && x !in s[..i] && r == s[..i] + s[i + 1..]
  }

  /** The first occurrence of `x` in the tail, shifted past a head that differs from `x`. */
  lemma RemovedAfterHead(s: seq<AnnualDecimal>, x: AnnualDecimal, rest: seq<AnnualDecimal>)
    requires |s| > 0 && s[0] != x
    requires RemovedFirstOccurrence(s[1..], x, rest)
    ensures RemovedFirstOccurrence(s, x, [s[0]] + rest)
  {
    var i' :| CutAt(s[1..], x, rest, i');
    HeadAndTailSlices(s, i');
    assert CutAt(s, x, [s[0]] + rest, i' + 1);
  }

  /** Slices of `s` at `i + 1` are the head followed by slices of the tail at `i`. */
  lemma HeadAndTailSlices(s: seq<AnnualDecimal>, i: nat)
    requires i < |s| - 1
    ensures s[..i + 1] == [s[0]] + s[1..][..i]
    ensures s[i + 2..] == s[1..][i + 1..]
  {
  }

  /** The entries of `s` from last to first. */
  function Reverse(s: seq<AnnualDecimal>): (r: seq<AnnualDecimal>)
    ensures |r| == |s|
    ensures forall i :: 0 <= i < |s| ==> r[i] == s[|s| - 1 - i]
  {
    if |s| == 0 then [] else [s[|s| - 1]] + Reverse(s[..|s| - 1])
  }

  /** In a series without repeated years the last entry occurs only at the end,
      so removing its first occurrence drops the last entry. */
  lemma RemoveLast(s: seq<AnnualDecimal>)
    requires |s| > 0 && UniqueYears(s)
    ensures RemoveFirst(s, s[|s| - 1]) == s[..|s| - 1]
  {
    var x := s[|s| - 1];
    assert x in s;
    var i :| CutAt(s, x, RemoveFirst(s, x), i);
    assert i == |s| - 1;
    assert s[i + 1..] == [];
  }

  /** `r` is `s` without its longest value-less prefix. */
  predicate TrimmedAtStart(s: seq<AnnualDecimal>, r: seq<AnnualDecimal>)
  {
    && |r| <= |s| && r == s[|s| - |r|..]
    && (forall i :: 0 <= i < |s| - |r| ==> !HasNonNullValue(s[i]))
    && (|r| > 0 ==> HasNonNullValue(r[0]))
  }

  /** `r` is `s` without its longest value-less suffix. */
  predicate TrimmedAtEnd(s: seq<AnnualDecimal>, r: seq<AnnualDecimal>)
  {
    && |r| <= |s| && r == s[..|r|]
    && (forall i :: |r| <= i < |s| ==> !HasNonNullValue(s[i]))
    && (|r| > 0 ==> HasNonNullValue(r[|r| - 1]))
  }

  /** Nothing is left to trim: the series is empty or starts and ends with a value. */
  predicate IsTrimmed(s: seq<AnnualDecimal>)
  {
    |s| > 0 ==> HasNonNullValue(s[0]) && HasNonNullValue(s[|s| - 1])
  }

  /** The start trim has exactly one possible outcome. */
  lemma TrimmedAtStartUnique(s: seq<AnnualDecimal>, r1: seq<AnnualDecimal>, r2: seq<AnnualDecimal>)
    requires TrimmedAtStart(s, r1) && TrimmedAtStart(s, r2)
    ensures r1 == r2
  {
  }

  /** The end trim has exactly one possible outcome. */
  lemma TrimmedAtEndUnique(s: seq<AnnualDecimal>, r1: seq<AnnualDecimal>, r2: seq<AnnualDecimal>)
    requires TrimmedAtEnd(s, r1) && TrimmedAtEnd(s, r2)
    ensures r1 == r2
  {
  }

  /** A series without any value is trimmed away entirely, from either end. */
  lemma AllNullTrimsAway(s: seq<AnnualDecimal>, r: seq<AnnualDecimal>)
    requires forall i :: 0 <= i < |s| ==> !HasNonNullValue(s[i])
    ensures TrimmedAtStart(s, r) ==> r == []
    ensures TrimmedAtEnd(s, r) ==> r == []
  {
  }

  /** A series that starts and ends with a value is its own trim at either end. */
  lemma TrimmedIsOwnTrim(s: seq<AnnualDecimal>)
    requires IsTrimmed(s)
    ensures TrimmedAtStart(s, s) && TrimmedAtEnd(s, s)
  {
  }

  lemma AscendingPrefix(s: seq<AnnualDecimal>, n: nat)
    requires Ascending(s) && n <= |s|
    ensures Ascending(s[..n]) && UniqueYears(s[..n])
  {
    AscendingIsSortedAndUnique(s[..n]);
  }

  /** One step of the end trim: dropping the last entry of a prefix. */
  lemma DropLastOfPrefix(s: seq<AnnualDecimal>, n: nat)
    requires Ascending(s) && 0 < n <= |s|
    ensures RemoveFirst(s[..n], s[n - 1]) == s[..n - 1]
  {
    var r := s[..n];
    AscendingPrefix(s, n);
    RemoveLast(r);
    assert r[n - 1] == s[n - 1];
    assert r[..n - 1] == s[..n - 1];
  }

  /** `TrimNullDataFromTheStart`: the private `TrimNulls` loop run over the entries
      ordered by year, which on the container's invariant is the series itself.
      Removes each value-less entry until the first one that has a value. */
  method TrimNullDataFromTheStart(s: seq<AnnualDecimal>) returns (r: seq<AnnualDecimal>)
    requires Ascending(s)
    ensures TrimmedAtStart(s, r)
    ensures Ascending(r)
    ensures IsTrimmed(s) ==> r == s
  {
    if |s| == 0 {
      return s;
    }
    var order := s;
    r := s;
    var k := 0;
    while k < |order|
      invariant 0 <= k <= |order|
      invariant r == s[k..]
      invariant forall i :: 0 <= i < k ==> !HasNonNullValue(s[i])
    {
      if HasNonNullValue(order[k]) {
        break;
      }
      assert r[1..] == s[k + 1..];
      r := RemoveFirst(r, order[k]);
      k := k + 1;
    }
  }

  /** `TrimNullDataFromTheEnd`: the same loop over the entries ordered by
      descending year, which on the container's invariant is the series reversed.
      Removes each value-less entry back to the last one that has a value. */
  method TrimNullDataFromTheEnd(s: seq<AnnualDecimal>) returns (r: seq<AnnualDecimal>)
    requires Ascending(s)
    ensures TrimmedAtEnd(s, r)
    ensures Ascending(r)
    ensures IsTrimmed(s) ==> r == s
  {
    if |s| == 0 {
      return s;
    }
    var order := Reverse(s);
    r := s;
    var k := 0;
    while k < |order|
      invariant 0 <= k <= |order|
      invariant r == s[..|s| - k]
      invariant forall i :: |s| - k <= i < |s| ==> !HasNonNullValue(s[i])
    {
      assert order[k] == s[|s| - 1 - k];
      if HasNonNullValue(order[k]) {
        break;
      }
      assert forall i :: |s| - (k + 1) <= i < |s| ==> !HasNonNullValue(s[i]);
      DropLastOfPrefix(s, |s| - k);
      r := RemoveFirst(r, order[k]);
      k := k + 1;
    }
    EndTrimStopped(s, r, k);
  }

  /** Where the end trim's loop stops: past every entry, or at a valued one. */
  lemma EndTrimStopped(s: seq<AnnualDecimal>, r: seq<AnnualDecimal>, k: nat)
    requires Ascending(s) && k <= |s| && r == s[..|s| - k]
    requires forall i :: |s| - k <= i < |s| ==> !HasNonNullValue(s[i])
    requires k < |s| ==> HasNonNullValue(s[|s| - 1 - k])
    ensures TrimmedAtEnd(s, r)
    ensures Ascending(r)
    ensures IsTrimmed(s) ==> r == s
  {
    if k < |s| {
      assert r[|r| - 1] == s[|s| - 1 - k];
    }
    AscendingPrefix(s, |r|);
    if IsTrimmed(s) {
      TrimmedIsOwnTrim(s);
      TrimmedAtEndUnique(s, r, s);
    }
  }

  /** Trimming a prefix and then a suffix, each without values, leaves a
      stretch of the original outside which nothing has a value. */
  lemma StretchOfTrims(s: seq<AnnualDecimal>, t: seq<AnnualDecimal>, r: seq<AnnualDecimal>)
    requires TrimmedAtStart(s, t) && TrimmedAtEnd(t, r)
    ensures var p := |s| - |t|;
      p + |r| <= |s| && r == s[p..p + |r|] &&
      (forall i :: p + |r| <= i < |s| ==> !HasNonNullValue(s[i]))
  {
    var p := |s| - |t|;
    forall i | p + |r| <= i < |s| ensures !HasNonNullValue(s[i]) {
      assert s[i] == t[i - p];
    }
  }

  lemma StretchKeepsValued(s: seq<AnnualDecimal>, p: int, r: seq<AnnualDecimal>, i: int, k: int, j: int)
    requires 0 <= p && p + |r| <= |s| && r == s[p..p + |r|]
    requires forall i :: 0 <= i < p ==> !HasNonNullValue(s[i])
    requires forall i :: p + |r| <= i < |s| ==> !HasNonNullValue(s[i])
    requires 0 <= i <= k <= j < |s|
    requires HasNonNullValue(s[i]) && HasNonNullValue(s[j])
    ensures s[k] in r
  {
    assert r[k - p] == s[k];
  }

  lemma TrimsKeepInterior(s: seq<AnnualDecimal>, t: seq<AnnualDecimal>, r: seq<AnnualDecimal>)
    requires TrimmedAtStart(s, t) && TrimmedAtEnd(t, r)
    ensures forall i, k, j :: 0 <= i <= k <= j < |s| && HasNonNullValue(s[i]) && HasNonNullValue(s[j]) ==> s[k] in r
  {
    StretchOfTrims(s, t, r);
    var p := |s| - |t|;
    forall i, k, j | 0 <= i <= k <= j < |s| && HasNonNullValue(s[i]) && HasNonNullValue(s[j])
      ensures s[k] in r
    {
      StretchKeepsValued(s, p, r, i, k, j);
    }
  }

  lemma TrimsAddNothing(s: seq<AnnualDecimal>, t: seq<AnnualDecimal>, r: seq<AnnualDecimal>)
    requires TrimmedAtStart(s, t) && TrimmedAtEnd(t, r)
    ensures forall e :: e in r ==> e in s
  {
    forall e | e in r ensures e in s {
      var n :| 0 <= n < |r| && r[n] == e;
      assert t[n] == e;
      assert s[|s| - |t| + n] == e;
    }
  }

  /** What a start trim followed by an end trim leaves: the ends carry values,
      nothing new appears, every entry between two valued entries survives, and a
      series without any value becomes empty. */
  lemma TrimsLeaveValuedStretch(s: seq<AnnualDecimal>, t: seq<AnnualDecimal>, r: seq<AnnualDecimal>)
    requires TrimmedAtStart(s, t) && TrimmedAtEnd(t, r)
    ensures IsTrimmed(r)
    ensures forall e :: e in r ==> e in s
    ensures forall i, k, j :: 0 <= i <= k <= j < |s| && HasNonNullValue(s[i]) && HasNonNullValue(s[j]) ==> s[k] in r
    ensures (forall i :: 0 <= i < |s| ==> !HasNonNullValue(s[i])) ==> r == []
  {
    TrimsKeepInterior(s, t, r);
    TrimsAddNothing(s, t, r);
    if |r| > 0 {
      assert r[0] == t[0];
    }
  }

  /** Trimming both ends of an already trimmed series changes nothing, so the
      second of two successive `TrimNullData` calls leaves the first's result. */
  lemma TrimNullDataIdempotent(s: seq<AnnualDecimal>, t: seq<AnnualDecimal>, r: seq<AnnualDecimal>,
                               t2: seq<AnnualDecimal>, r2: seq<AnnualDecimal>)
    requires TrimmedAtStart(s, t) && TrimmedAtEnd(t, r)
    requires TrimmedAtStart(r, t2) && TrimmedAtEnd(t2, r2)
    ensures r2 == r
  {
    TrimsLeaveValuedStretch(s, t, r);
    TrimmedIsOwnTrim(r);
    TrimmedAtStartUnique(r, t2, r);
    TrimmedAtEndUnique(r, r2, r);
  }

  /** `TrimNullData`: trims the start, then the end. What is left is the stretch
      from the first to the last year with a value, null entries inside it
      included; a series without any value becomes empty; and a trimmed series
      is left as it is, so trimming twice is trimming once. `t` is the series
      between the two trims. */
  method TrimNullData(s: seq<AnnualDecimal>) returns (r: seq<AnnualDecimal>, ghost t: seq<AnnualDecimal>)
    requires Ascending(s)
    ensures TrimmedAtStart(s, t) && TrimmedAtEnd(t, r)
    ensures Ascending(r)
    ensures IsTrimmed(r)
    ensures IsTrimmed(s) ==> r == s
    ensures forall e :: e in r ==> e in s
    ensures forall i, k, j :: 0 <= i <= k <= j < |s| && HasNonNullValue(s[i]) && HasNonNullValue(s[j]) ==> s[k] in r
    ensures (forall i :: 0 <= i < |s| ==> !HasNonNullValue(s[i])) ==> r == []
  {
    var started := TrimNullDataFromTheStart(s);
    r := TrimNullDataFromTheEnd(started);
    t := started;
    assert TrimmedAtStart(s, t) && TrimmedAtEnd(t, r);
    TrimsLeaveValuedStretch(s, t, r);
    if IsTrimmed(s) {
      assert t == s;
    }
  }
}

=== FILE: wrappers.dfy ===
/** Failure-carrying datatypes used throughout the model. */
module Wrappers {

  /** A value that may be absent; `None` stands for the `null` a .NET lookup returns. */
  datatype Option<+T> = None | Some(value: T)

  /** The outcome of an operation that can throw: `Failure` stands for the exception. */
  datatype Result<+R, +E> = Success(value: R) | Failure(error: E)
}
